=== FILE: README.md ===
# Message-automation server core, modelled in Dafny

The server (`index.js`) accepts WebSocket commands to start and stop
"sessions". A session sends a list of text lines to one chat thread, one
line at a time, with a fixed pause between lines. This project models the
parts of that server that decide what happens:

- the cookie-header parser `parseCookies`;
- the part of `handleStart` that splits the message text into lines,
  refuses a blank text and builds and files the session record;
- the send loop `runAutomation`, with the remote send and the moment a
  stop request arrives given as inputs (a `World`);
- `handleStop`, `handleViewSession`, the `message.type` dispatch, and the
  `/api/sessions` listing;
- the process-wide session table, a JavaScript `Map` that keeps insertion
  order.

Modules:

- `Optional`: the option type.
- `JsString`: `String.prototype.trim` and `String.prototype.split` with a
  one-character separator, following ECMA-262 sections 12.2, 12.3,
  22.1.3.23 and 22.1.3.32.
- `Cookies`: `parseCookies`.
- `Sessions`: the session record, and the views the `stats`,
  `session_details` and `/api/sessions` messages send.
- `Events`: every message the server sends on the connection.
- `Automation`: the send loop.
- `Registry`: the session table (the datatype `Table`).
- `Gateway`: the handlers and the dispatcher.

Facts about `index.js` that the model keeps:

- A session never gets a `failed` status.
- A failed send is not retried, and no jitter or minimum is applied to the
  delay.
- Sessions are never removed from the table, and nothing happens on
  disconnect.
- A stop request is seen only at the check before the next line.
- The pause between lines is a `setTimeout` of `delay * 1000`
  milliseconds. Node.js waits 1 millisecond instead when that product is
  below 1 or above 2147483647, so a negative or huge delay gives a 1 ms
  pause. A zero delay never reaches the timer: `delay || 5` turns it into
  5 seconds.
- A cookie value that is blank before trimming but followed by another
  `=` survives as an EMPTY value: `a= =b` gives `a` the value `""`.
  `BlankValueSurvives` proves this.

## Model

| member | source | states |
|---|---|---|
| JsString.Trim | index.js:25 | The trimmed string has no white space at either end and is no longer than the input. |
| JsString.TrimSlice | index.js:25 | `trim` keeps one contiguous slice of the input and removes only white space around it. |
| JsString.TrimIdempotent | index.js:27 | Trimming an already trimmed name or value changes nothing. |
| JsString.TrimEmptyIffBlank | index.js:169 | `m.trim()` is falsy exactly when the line consists only of white space. |
| JsString.Split | index.js:24-25 | `split` returns at least one piece, and no piece contains the separator. There are two or more pieces iff the separator occurs. The first piece is the text before the first separator. Joining the pieces with the separator gives back the input. |
| JsString.SplitJoin | index.js:24-25 | Splitting undoes joining for pieces free of the separator, so the pieces are exactly the maximal separator-free runs. |
| JsString.AllWhiteJoin | index.js:169 | Text joined with newlines is all white space iff every line is. |
| Cookies.PairOf | index.js:25-27 | When a piece yields a pair, the name is non-empty and trimmed, the value is trimmed, and neither contains `=`, nor `;` when the piece has none. |
| Cookies.PairOfByScan | index.js:25-27 | A pair exists iff the trimmed piece contains an `=` and its first `=` is neither its first nor its last character and is not followed by another `=`, that is, iff both `=`-parts are non-empty before trimming. The name is the text before the first `=` and the value the text up to the next `=`, both trimmed. |
| Cookies.ValueStopsAtSecondEquals | index.js:25 | Destructuring keeps only the first two `=`-parts: any piece that trims to `name=value=rest` yields (name, value), whatever `rest` holds. |
| Cookies.BlankValueSurvives | index.js:26-27 | The value is checked for emptiness before it is trimmed, so any piece that trims to `name=<blank>=rest` yields the name with an empty value. |
| Cookies.Collect | index.js:24-29 | The built object has no `__proto__` own key, and every entry comes from some piece's pair. |
| Cookies.CollectLastWins | index.js:24-28 | A name is present iff some pair names it and it is not `__proto__`. Its value is the one from the last such pair. |
| Cookies.ParseCookies | index.js:20-31 | An absent or empty argument gives the empty object. Every key is a non-empty trimmed name and every value a trimmed value, neither containing `;` or `=`. |
| Cookies.ParseCookiesLastWins | index.js:20-31 | For any string: a name is present iff some `;`-piece names it, and the last such piece decides its value. |
| Gateway.NonBlank | index.js:169 | The filter keeps only lines with content and never adds lines. |
| Gateway.NonBlankMembers | index.js:169 | A line is kept iff it is one of the input lines and has content. |
| Gateway.NonBlankAppend | index.js:169 | Filtering distributes over concatenation, so kept lines keep their order. |
| Gateway.NonBlankKeepsAll | index.js:169 | Lines that all have content pass through unchanged. |
| Gateway.SplitMessages | index.js:169 | Each message is one newline-free line of the text, with content. A line of the text is a message iff it has content. |
| Gateway.CookiesFor | index.js:161-166 | The cookies are the JSON text exactly when the text is present and `JSON.parse` accepts it. Otherwise they are the object `parseCookies` builds from the text, which is the empty object when the field is missing (`undefined`). |
| Gateway.NoMessagesIffBlank | index.js:169-177 | The message list is empty, and "No messages provided" is sent, exactly when the text is all white space. |
| Gateway.Prepare | index.js:155-217 | The start is admitted iff the message text is present and not blank and authentication returned a token that is neither absent nor empty. A missing text gives exactly the thrown TypeError's message, a blank text exactly the "No messages provided" error, and a non-blank text without a token the "Authenticating" log followed by the "Failed to authenticate" error; every refusal ends with an error message. An admitted session is `running` with zero counters, no stop request, the split lines, the given thread and token, the given start time, the cookies `CookiesFor` makes of the cookie text, the given delay or 5 when it is absent or zero, and the given prefix or the empty string. |
| Gateway.HandleStart | index.js:154-247 | A refused start leaves the table unchanged. An admitted one files the new session under its id before the loop runs and the loop's final session afterwards. All other entries and the insertion order are untouched, and the table stays valid. |
| Gateway.BlankStartRegistersNothing | index.js:169-177 | A blank message text sends exactly one error and files no session. |
| Automation.Outgoing | index.js:265 | The text sent is the prefix, a space and the line when the prefix is non-empty, and the bare line otherwise. |
| Automation.OutgoingInjective | index.js:265 | Different lines are sent as different texts under the same prefix. |
| Automation.FirstStop | index.js:253-254 | The first index at which the loop sees the stop flag: no check before it sees the flag, and the check at it does. |
| Automation.LineEvents | index.js:267-297 | Each attempted line sends one success log line iff its send succeeded, and no `completed` event. |
| Automation.RunFrom | index.js:250-320 | Exactly the lines before the first stop are sent, in order, each with its prefix. `totalSent` grows by the number of successful sends among them. On a stop the session ends `stopped` with `loopCount` unchanged. Otherwise it ends `completed` with `loopCount` one higher. The configuration fields never change. |
| Automation.RunFromSuccessLog | index.js:280-297 | The number of "sent successfully" log lines equals the number of successful sends. |
| Automation.RunFromStopLog | index.js:254-262 | A stopped run sends no `completed` event. |
| Automation.RunFromCompletionLog | index.js:305-319 | A completed run sends exactly one `completed` event, as its last message, carrying the final `totalSent`. |
| Automation.RunFromPauseLengths | index.js:299-302 | Every wait is the one the timer takes for `delay * 1000` milliseconds: exactly that when it lies between 1 and 2147483647, and 1 millisecond otherwise. |
| Automation.RunFromPauseCount | index.js:299-302 | There is a wait after every attempted line except the last line of the list. |
| Automation.StopPath | index.js:253-262 | When the flag is first seen before line `k`, exactly lines `0..k-1` are sent. The session ends `stopped` with `loopCount` unchanged, `k` waits were taken and no `completed` event is sent. |
| Automation.CompletionPath | index.js:253-319 | When the flag is never seen, every line is sent once, in order, with `n - 1` waits. The session ends `completed` with `loopCount` one higher, and the only `completed` event is the last one. |
| Automation.SentBounds | index.js:282-283 | `totalSent` never decreases, and it rises by at most the number of attempted lines, which is at most the number of lines. |
| Automation.AllSentCounted | index.js:282-283 | With no stop and every send succeeding, `totalSent` rises by exactly the number of lines. |
| Registry.Put | index.js:219 | `sessions.set` files the record under its id and leaves every other entry alone. A new id goes to the end of the insertion order, and the table stays valid. |
| Registry.MarkStop | index.js:336-338 | Only the `stopRequested` flag of the named session changes. |
| Registry.List | index.js:374-383 | One summary per session, in insertion order, each showing its session's current id, status, count, thread and start time. |
| Registry.ListEachOnce | index.js:375-381 | Every registered session is listed, and none twice. |
| Registry.NoIdsListNothing | index.js:374-383 | A table with no sessions gives an empty listing. |
| Gateway.HandleStop | index.js:335-350 | For a known id, only that session's stop flag is set and a warning is logged. For an unknown id, "Session not found" is sent and nothing changes. |
| Gateway.StopIdempotent | index.js:335-350 | Stopping twice leaves the table as stopping once does. |
| Gateway.HandleViewSession | index.js:353-371 | One message. For a known id it is `session_details` with the session's id, status, `totalSent`, `loopCount`, start time and thread. Otherwise it is "Session not found". |
| Gateway.ViewAgreesWithList | index.js:353-383 | The details sent for a session agree with its line in the `/api/sessions` listing. |
| Gateway.OnMessage | index.js:107-142 | An unknown `type` sends "Unknown command" and changes nothing. Only `start` can add a session. No command removes or reorders one. |
| Gateway.OnInbound | index.js:97-151 | Closing the connection or a socket error sends nothing and changes nothing. |
| Gateway.Serve | index.js:97-151 | Over any run of connection events the table stays valid and never loses or reorders an entry. |
| Gateway.NoStartNoSession | index.js:107-142 | Connection events that carry no `start` command leave the set of session ids as it was. |
| Gateway.NoStartListsNothing | index.js:107-142 | Starting from a table with no sessions, events without a `start` command leave `/api/sessions` empty. |
| Gateway.ServeFromEmpty | index.js:17 | The table starts empty, so until a `start` command arrives `/api/sessions` lists nothing. |

## Left out

- `getFbDtsg` (index.js:34-59) and `sendMessage` (index.js:62-94) make network requests, so they are inputs. The token is an optional string in `StartEnv`; each send's outcome is a `Tick` of the `World`.
- `JSON.parse` of the cookie text is the boolean `cookiesAreJson`. The parsed object itself is not modelled; the text is kept as `JsonCookies`.
- The session id (`Date.now` and `Math.random`) and the start time (`toLocaleString`) are inputs.
- The waits (`setTimeout`) are recorded as durations in milliseconds, not taken. The recorded duration is the one Node.js uses after it replaces a delay below 1 or above 2147483647 by 1. A delay that is not an integer is not modelled.
- The session record's `ws` field (index.js:215) is not modelled: each handler returns the messages it sends instead. `Gateway.Serve` puts the messages of every connection into one list, in order, and does not say which connection each went to.
- Automation.RunFrom: the `World` may report a stop at the check before line 0. `index.js` cannot produce that, because nothing awaits between `sessions.set` (index.js:219) and that check (index.js:254). The model therefore admits runs the server cannot have, and no contract depends on excluding them.
- Interleaving of concurrent connections and sessions is left out. A start is handled to the end of its loop before the next inbound event. A stop for a running loop appears only through the `World`'s `stopSeen` answers.
- Automation.RunFrom: a stop request that arrives after the last line's check leaves `stopRequested` as it was in the returned session.
- The Express routes `/api/sessions/:id` and `/health`, static files and the HTTP listener are not modelled; only the `/api/sessions` listing is.
- Console logging is left out.
- Gateway.CookiesFor: a `cookiesContent` sent as `null` is not modelled; `None` is a missing (`undefined`) field only. For `null`, `JSON.parse` returns `null` (index.js:163), so `cookies` is `null`; `getFbDtsg` then fails at `Object.entries(null)` and returns `null` (index.js:36, 55-57), and the start is refused with "Failed to authenticate" (index.js:188-193). In the model this run is the same as the JSON text `"null"` with no token.
- Gateway.Prepare: a `messageContent` sent as `null` is not modelled. `null.split` throws a TypeError that names `null` instead of `undefined`, and the dispatcher sends that message as an error.
- Gateway.OnMessage: fields are assumed to have the types the handlers use. `type`, `sessionId` and `threadID` are strings (an absent one is `""`), `delay` is an integer, and `prefix` is a string.
- Gateway.OnMessage: exceptions other than a parse error or an absent message text are not modelled. Examples are a frame that parses to `null` (reading its `type` throws) and a failing `ws.send` on a closed socket.
- JavaScript strings are sequences of UTF-16 code units; the model uses Unicode scalar values.

=== FILE: automation.dfy ===
/** `runAutomation` (index.js:250-320): one pass over the session's lines.
    Before each line the loop reads the session's stop flag; it then builds
    the outgoing text, reports it, sends it, counts a success, reports the
    outcome and the new counters, and waits `delay` seconds unless this was
    the last line. The remote send and the moment a stop request lands are
    outside the loop's control, so they are inputs: a `World` gives, for
    each line index, whether a stop request had arrived by the check before
    that line and what the send returned. */
module Automation {
  import opened Sessions
  import opened Events

  /** What `sendMessage` resolved to (index.js:90-93). */
  datatype SendResult = Delivered | Refused(error: string)

  /** What the outside world did around line `i`. */
  datatype Tick = Tick(stopSeen: bool, result: SendResult)

  type World = nat -> Tick

  /** `message.substring(0, 50)` in the progress log line. */
  const PreviewLength: nat := 50

  /** The text sent for one line (index.js:265): the prefix and a space in
      front of the line when the prefix is non-empty, the bare line
      otherwise. */
  function Outgoing(prefix: string, line: string): (text: string)
    ensures |prefix| == 0 ==> text == line
    ensures |prefix| > 0 ==> |text| == |prefix| + 1 + |line| && text[..|prefix|] == prefix && text[|prefix|] == ' '
    ensures text[|text| - |line|..] == line
  {
    if |prefix| > 0 then prefix + " " + line else line
  }

  /** Removing the prefix and its space recovers the line, so different lines
      are sent as different texts. */
  lemma OutgoingInjective(prefix: string, a: string, b: string)
    requires Outgoing(prefix, a) == Outgoing(prefix, b)
    ensures a == b
  {
    var t := Outgoing(prefix, a);
    assert a == t[|t| - |a|..];
  }

  function Preview(text: string): (p: string)
    ensures |p| <= PreviewLength && |p| <= |text| && p == text[..|p|]
    ensures |text| <= PreviewLength ==> p == text
  {
    if |text| <= PreviewLength then text else text[..PreviewLength]
  }

  /** All outgoing texts of a session, line by line. */
  function Texts(s: Session): (ts: seq<string>)
    ensures |ts| == |s.messages|
    ensures forall j :: 0 <= j < |ts| ==> ts[j] == Outgoing(s.prefix, s.messages[j])
  {
    seq(|s.messages|, j requires 0 <= j < |s.messages| => Outgoing(s.prefix, s.messages[j]))
  }

  /** The index of the first check, at or after `i`, that sees the stop flag
      set (`pending`: it was already set when the loop reached `i`), or `n`
      when no check before the end sees it. */
  function FirstStop(pending: bool, w: World, i: nat, n: nat): (k: nat)
    requires i <= n
    ensures i <= k <= n
    ensures forall j :: i <= j < k ==> !pending && !w(j).stopSeen
    ensures k < n ==> pending || w(k).stopSeen
    decreases n - i
  {
    if i == n then n
    else if pending || w(i).stopSeen then i
    else FirstStop(pending, w, i + 1, n)
  }

  /** The number of lines in `[i, k)` whose send succeeded. */
  function DeliveredIn(w: World, i: nat, k: nat): (c: nat)
    requires i <= k
    ensures c <= k - i
    decreases k - i
  {
    if i == k then 0 else (if w(i).result.Delivered? then 1 else 0) + DeliveredIn(w, i + 1, k)
  }

  /** When every send in `[i, k)` succeeded, all of them are counted. */
  lemma {:induction false} AllDelivered(w: World, i: nat, k: nat)
    requires i <= k
    requires forall j :: i <= j < k ==> w(j).result.Delivered?
    ensures DeliveredIn(w, i, k) == k - i
    decreases k - i
  {
    if i < k {
      AllDelivered(w, i + 1, k);
    }
  }

  /** The outcome of running the loop: the final session, the events sent,
      the texts handed to `sendMessage` in order, and the waits (in
      milliseconds) taken between lines. */
  datatype Run = Run(session: Session, events: seq<Event>, attempts: seq<string>, pauses: seq<int>)

  /** The first line, at or after `i`, before which the loop sees the stop
      flag of session `s`; `|s.messages|` when it never does. */
  function StopIndex(s: Session, w: World, i: nat): (k: nat)
    requires i <= |s.messages|
    ensures i <= k <= |s.messages|
  {
    FirstStop(s.stopRequested, w, i, |s.messages|)
  }

  lemma TextsStep(s: Session, i: nat, k: nat)
    requires i < k <= |s.messages|
    ensures Texts(s)[i..k] == [Outgoing(s.prefix, s.messages[i])] + Texts(s)[i + 1..k]
  {
  }

  /** The session after the send of line `i`: one more `totalSent` exactly
      when the send succeeded (index.js:282-283). */
  function AfterSend(s: Session, w: World, i: nat): (s': Session)
    ensures SameConfig(s, s') && s'.status == s.status && s'.loopCount == s.loopCount
    ensures s'.stopRequested == s.stopRequested
    ensures s'.totalSent == s.totalSent + (if w(i).result.Delivered? then 1 else 0)
  {
    if w(i).result.Delivered? then s.(totalSent := s.totalSent + 1) else s
  }

  /** The events of one attempted line (index.js:267-297): the progress log
      line with a 50-character preview, the `stats` event with the full text
      and position, the success or failure log line, and the counters after
      the send. */
  function LineEvents(s: Session, w: World, i: nat): (events: seq<Event>)
    requires i < |s.messages|
    ensures CountSentOk(events) == if w(i).result.Delivered? then 1 else 0
    ensures NoCompletion(events)
  {
    var n := |s.messages|;
    var text := Outgoing(s.prefix, s.messages[i]);
    var report :=
      if w(i).result.Delivered? then Log(Success, SentOk(i + 1))
      else Log(Error, SendFailed(i + 1, w(i).result.error));
    var front := [Log(Info, Sending(i + 1, n, Preview(text))), Progress(text, i + 1, n)];
    var tail := [Stats(StatsOf(AfterSend(s, w, i)))];
    CountSentOkNone(front);
    CountSentOkNone(tail);
    CountSentOkOne(report);
    CountSentOkAppend(front, [report]);
    CountSentOkAppend(front + [report], tail);
    front + [report] + tail
  }

  /** The largest delay Node.js timers accept: `2^31 - 1` milliseconds. */
  const TimeoutMax: int := 0x7FFF_FFFF

  /** The wait, in milliseconds, that `setTimeout(resolve, ms)` actually
      takes: Node.js replaces a delay below 1 or above `TimeoutMax` by 1. */
  function TimerWait(ms: int): (wait: int)
    ensures 1 <= wait <= TimeoutMax
    ensures 1 <= ms <= TimeoutMax ==> wait == ms
    ensures !(1 <= ms <= TimeoutMax) ==> wait == 1
  {
    if 1 <= ms <= TimeoutMax then ms else 1
  }

  /** The wait after line `i`, from `setTimeout(resolve, delay * 1000)`:
      none after the last line (index.js:300-302). */
  function PauseAfter(s: Session, i: nat): (p: seq<int>)
    ensures |p| == if i + 1 < |s.messages| then 1 else 0
    ensures forall j :: 0 <= j < |p| ==> p[j] == TimerWait(s.delay * 1000)
  {
    if i < |s.messages| - 1 then [TimerWait(s.delay * 1000)] else []
  }

  /** Leaving the loop after the last line (index.js:305-319). */
  function Finish(s: Session): (r: Run)
    ensures r.session.status == Completed && r.session.loopCount == s.loopCount + 1
    ensures |r.events| > 0 && r.events[|r.events| - 1] == Finished(s.id, s.totalSent)
    ensures CountSentOk(r.events) == 0 && CompletionOnlyLast(r.events)
  {
    var done := s.(status := Completed, loopCount := s.loopCount + 1);
    var events := [Stats(StatsOf(done)), Log(Success, AllSent), Finished(s.id, s.totalSent)];
    CountSentOkNone(events);
    Run(done, events, [], [])
  }

  /** Returning early because the stop flag is set (index.js:254-262). */
  function Halt(s: Session): (r: Run)
    ensures r.session.status == Stopped && r.session.stopRequested
    ensures CountSentOk(r.events) == 0 && NoCompletion(r.events)
  {
    var halted := s.(status := Stopped, stopRequested := true);
    var events := [Log(Warning, StoppedByUser), Stats(StatsOf(halted))];
    CountSentOkNone(events);
    Run(halted, events, [], [])
  }

  /** The loop from line `i` on, with `s` the session as it stands at the
      top of iteration `i`, and `k` the first line before which the stop
      flag is seen (`n` if none): exactly the lines `i..k-1` are attempted,
      in order, and `totalSent` grows by the number of those sends that
      succeeded; on a stop the session ends `stopped` with `loopCount`
      unchanged, otherwise it ends `completed` with `loopCount` one higher.
      The configuration fields never change. */
  function RunFrom(s: Session, w: World, i: nat): (r: Run)
    requires i <= |s.messages|
    ensures SameConfig(s, r.session)
    ensures r.attempts == Texts(s)[i..StopIndex(s, w, i)]
    ensures r.session.totalSent == s.totalSent + DeliveredIn(w, i, StopIndex(s, w, i))
    ensures StopIndex(s, w, i) < |s.messages| ==>
      && r.session.status == Stopped
      && r.session.loopCount == s.loopCount
      && r.session.stopRequested
    ensures StopIndex(s, w, i) == |s.messages| ==>
      && r.session.status == Completed
      && r.session.loopCount == s.loopCount + 1
      && r.session.stopRequested == s.stopRequested
    decreases |s.messages| - i
  {
    if i == |s.messages| then Finish(s)
    else if s.stopRequested || w(i).stopSeen then Halt(s)
    else
      var rest := RunFrom(AfterSend(s, w, i), w, i + 1);
      var k := StopIndex(s, w, i);
      assert k > i ==> Texts(s)[i..k] == [Outgoing(s.prefix, s.messages[i])] + Texts(s)[i + 1..k] by {
        if k > i { TextsStep(s, i, k); }
      }
      Run(rest.session, LineEvents(s, w, i) + rest.events,
          [Outgoing(s.prefix, s.messages[i])] + rest.attempts, PauseAfter(s, i) + rest.pauses)
  }

  /** The log from line `i` on reports as many "sent successfully" lines as
      sends that succeeded. */
  lemma {:induction false} RunFromSuccessLog(s: Session, w: World, i: nat)
    requires i <= |s.messages|
    ensures CountSentOk(RunFrom(s, w, i).events) == DeliveredIn(w, i, StopIndex(s, w, i))
    decreases |s.messages| - i
  {
    if i < |s.messages| && !(s.stopRequested || w(i).stopSeen) {
      var s' := AfterSend(s, w, i);
      RunFromSuccessLog(s', w, i + 1);
      CountSentOkAppend(LineEvents(s, w, i), RunFrom(s', w, i + 1).events);
    }
  }

  /** On the stop path no `completed` event is sent. */
  lemma {:induction false} RunFromStopLog(s: Session, w: World, i: nat)
    requires i <= |s.messages|
    requires StopIndex(s, w, i) < |s.messages|
    ensures NoCompletion(RunFrom(s, w, i).events)
    decreases |s.messages| - i
  {
    if i < |s.messages| && !(s.stopRequested || w(i).stopSeen) {
      RunFromStopLog(AfterSend(s, w, i), w, i + 1);
    }
  }

  /** One step of the loop: when line `i` is attempted, the run from `i` is
      that line's events and text followed by the run from `i + 1`. */
  lemma RunFromStep(s: Session, w: World, i: nat)
    requires i < |s.messages| && !(s.stopRequested || w(i).stopSeen)
    ensures var s' := AfterSend(s, w, i);
      var rest := RunFrom(s', w, i + 1);
      && RunFrom(s, w, i).session == rest.session
      && RunFrom(s, w, i).events == LineEvents(s, w, i) + rest.events
      && RunFrom(s, w, i).pauses == PauseAfter(s, i) + rest.pauses
      && StopIndex(s', w, i + 1) == StopIndex(s, w, i)
  {
  }

  /** On the completion path exactly one `completed` event is sent, last,
      carrying the final `totalSent`. */
  lemma {:induction false} RunFromCompletionLog(s: Session, w: World, i: nat)
    requires i <= |s.messages|
    requires StopIndex(s, w, i) == |s.messages|
    ensures var r := RunFrom(s, w, i);
      && CompletionOnlyLast(r.events)
      && r.events[|r.events| - 1] == Finished(s.id, r.session.totalSent)
    decreases |s.messages| - i
  {
    if i < |s.messages| {
      assert !(s.stopRequested || w(i).stopSeen);
      var s' := AfterSend(s, w, i);
      RunFromStep(s, w, i);
      RunFromCompletionLog(s', w, i + 1);
      CompletionOnlyLastAppend(LineEvents(s, w, i), RunFrom(s', w, i + 1).events);
    }
  }

  /** Every wait the loop takes from line `i` on is the timer's wait for
      `delay * 1000` milliseconds (index.js:301): exactly that when it is
      between 1 and `TimeoutMax`, and 1 millisecond otherwise. */
  lemma {:induction false} RunFromPauseLengths(s: Session, w: World, i: nat)
    requires i <= |s.messages|
    ensures var p := RunFrom(s, w, i).pauses;
      forall j :: 0 <= j < |p| ==> p[j] == TimerWait(s.delay * 1000)
    decreases |s.messages| - i
  {
    if i < |s.messages| && !(s.stopRequested || w(i).stopSeen) {
      var s' := AfterSend(s, w, i);
      RunFromStep(s, w, i);
      RunFromPauseLengths(s', w, i + 1);
      var p := PauseAfter(s, i);
      var rest := RunFrom(s', w, i + 1).pauses;
      forall j | 0 <= j < |p + rest| ensures (p + rest)[j] == TimerWait(s.delay * 1000) {
        if j >= |p| { assert (p + rest)[j] == rest[j - |p|]; }
      }
    }
  }

  /** The number of waits from line `i` on: one after every attempted line
      but the last line of the list (index.js:300), so `k - i` when the stop
      flag is first seen before line `k`, and `n - 1 - i` on the completion
      path. */
  lemma {:induction false} RunFromPauseCount(s: Session, w: World, i: nat)
    requires i <= |s.messages|
    ensures |RunFrom(s, w, i).pauses| ==
      if StopIndex(s, w, i) < |s.messages| then StopIndex(s, w, i) - i
      else if i < |s.messages| then |s.messages| - 1 - i else 0
    decreases |s.messages| - i
  {
    if i < |s.messages| && !(s.stopRequested || w(i).stopSeen) {
      var s' := AfterSend(s, w, i);
      RunFromStep(s, w, i);
      RunFromPauseCount(s', w, i + 1);
      assert |RunFrom(s, w, i).pauses| == |PauseAfter(s, i)| + |RunFrom(s', w, i + 1).pauses|;
      if StopIndex(s, w, i) < |s.messages| {
        assert |PauseAfter(s, i)| == 1;
      }
    } else if i < |s.messages| {
      assert StopIndex(s, w, i) == i;
    }
  }

  /** `runAutomation(session)`: the loop from the first line. */
  function RunAutomation(s: Session, w: World): Run {
    RunFrom(s, w, 0)
  }

  /** Stop path: when the stop flag is first seen before line `k`, exactly
      the lines before `k` were attempted (none at or after `k`), the session
      is `stopped`, `loopCount` is unchanged, `k` waits were taken and no
      `completed` event is sent. */
  lemma StopPath(s: Session, w: World, k: nat)
    requires k < |s.messages| && !s.stopRequested
    requires forall j :: 0 <= j < k ==> !w(j).stopSeen
    requires w(k).stopSeen
    ensures var r := RunAutomation(s, w);
      && r.attempts == Texts(s)[..k]
      && r.session.status == Stopped
      && r.session.loopCount == s.loopCount
      && r.session.totalSent == s.totalSent + DeliveredIn(w, 0, k)
      && |r.pauses| == k
      && NoCompletion(r.events)
  {
    assert StopIndex(s, w, 0) == k;
    assert Texts(s)[0..k] == Texts(s)[..k];
    RunFromStopLog(s, w, 0);
    RunFromPauseCount(s, w, 0);
  }

  /** Completion path: when the stop flag is never seen, every line is
      attempted once, in order, with `|messages| - 1` waits between them;
      the session ends `completed` with `loopCount` one higher, and the only
      `completed` event is the last one, carrying the final `totalSent`. */
  lemma CompletionPath(s: Session, w: World)
    requires !s.stopRequested
    requires forall j :: 0 <= j < |s.messages| ==> !w(j).stopSeen
    ensures var r := RunAutomation(s, w);
      && r.attempts == Texts(s)
      && r.session.status == Completed
      && r.session.loopCount == s.loopCount + 1
      && r.session.totalSent == s.totalSent + DeliveredIn(w, 0, |s.messages|)
      && |r.pauses| == (if |s.messages| > 0 then |s.messages| - 1 else 0)
      && CompletionOnlyLast(r.events)
      && r.events[|r.events| - 1] == Finished(s.id, r.session.totalSent)
  {
    assert StopIndex(s, w, 0) == |s.messages|;
    assert Texts(s)[0..|s.messages|] == Texts(s);
    RunFromCompletionLog(s, w, 0);
    RunFromPauseCount(s, w, 0);
  }

  /** Counter bounds: `totalSent` never decreases, rises by at most the
      number of lines attempted, and at most `|messages|` lines are
      attempted. */
  lemma SentBounds(s: Session, w: World)
    ensures var r := RunAutomation(s, w);
      s.totalSent <= r.session.totalSent <= s.totalSent + |r.attempts| <= s.totalSent + |s.messages|
  {
  }

  /** With no stop and every send succeeding, `totalSent` rises by exactly
      the number of lines. */
  lemma AllSentCounted(s: Session, w: World)
    requires !s.stopRequested
    requires forall j :: 0 <= j < |s.messages| ==> !w(j).stopSeen && w(j).result.Delivered?
    ensures RunAutomation(s, w).session.totalSent == s.totalSent + |s.messages|
    ensures RunAutomation(s, w).session.status == Completed
  {
    CompletionPath(s, w);
    AllDelivered(w, 0, |s.messages|);
  }
}

=== FILE: cookies.dfy ===
/** `parseCookies` (index.js:20-31): turns a `Cookie:` header style string
    `name=value; name2=value2` into a name-to-value object. */
module Cookies {
  import opened Optional
  import opened JsString

  type Jar = map<string, string>

  /** Assigning a string to `__proto__` on a plain object changes nothing, so
      this one name can never appear in the result object. */
  const ProtoKey: string := "__proto__"

  /** A cookie name as it can appear in the result: non-empty, trimmed,
      free of the two separators. */
  predicate WellFormedName(k: string) {
    |k| > 0 && IsTrimmed(k) && '=' !in k && ';' !in k
  }

  /** A cookie value as it can appear in the result: trimmed and free of the
      two separators. It may be empty (see `BlankValueSurvives`). */
  predicate WellFormedValue(v: string) {
    IsTrimmed(v) && '=' !in v && ';' !in v
  }

  /** The pair one `;`-separated piece contributes, if any (index.js:25-27):
      the trimmed piece is split on every `=`; the first part is the name and
      the second the value, both trimmed, and the pair is kept only when both
      untrimmed parts are non-empty. Parts after the second are ignored. */
  function PairOf(piece: string): (r: Option<(string, string)>)
    ensures r.Some? ==> |r.value.0| > 0 && IsTrimmed(r.value.0) && IsTrimmed(r.value.1)
    ensures r.Some? ==> '=' !in r.value.0 && '=' !in r.value.1
    ensures r.Some? && ';' !in piece ==> WellFormedName(r.value.0) && WellFormedValue(r.value.1)
  {
    var t := Trim(piece);
    var parts := Split(t, '=');
    if |parts| >= 2 && parts[0] != [] && parts[1] != [] then
      TrimKeepsHead(parts[0]);
      TrimKeepsAbsent(parts[0], '=');
      TrimKeepsAbsent(parts[1], '=');
      if ';' !in piece then
        TrimKeepsAbsent(piece, ';');
        assert ';' !in parts[0] && ';' !in parts[1] by { SplitPiecesFrom(t, '=', ';'); }
        TrimKeepsAbsent(parts[0], ';');
        TrimKeepsAbsent(parts[1], ';');
        Some((Trim(parts[0]), Trim(parts[1])))
      else
        Some((Trim(parts[0]), Trim(parts[1])))
    else
      None
  }

  /** Pieces of a split only hold characters of the split string. */
  lemma SplitPiecesFrom(s: string, sep: char, c: char)
    requires c !in s
    ensures forall k :: 0 <= k < |Split(s, sep)| ==> c !in Split(s, sep)[k]
    decreases |s|
  {
    if sep in s {
      var i := IndexOf(s, sep);
      var u := s[i + 1..];
      assert c !in u by {
        forall j | 0 <= j < |u| ensures u[j] != c { assert u[j] == s[i + 1 + j]; }
      }
      SplitPiecesFrom(s[i + 1..], sep, c);
      assert forall j :: 0 <= j < |s[..i]| ==> s[..i][j] == s[j];
    }
  }

  /** `PairOf` described by scanning instead of splitting: with `t` the
      trimmed piece, a pair exists exactly when `t` has an `=` and its FIRST
      `=` is neither the first nor the last character of `t` and is not
      followed by another `=` (both `=`-parts are non-empty before
      trimming); the name is the text before the first `=`, the value the
      text between the first and the second `=` (or the end), both
      trimmed. */
  lemma PairOfByScan(piece: string)
    ensures var t := Trim(piece);
      PairOf(piece).Some? <==>
        ('=' in t && 0 < IndexOf(t, '=') && IndexOf(t, '=') + 1 < |t| && t[IndexOf(t, '=') + 1] != '=')
    ensures var t := Trim(piece);
      PairOf(piece).Some? ==>
        PairOf(piece).value == (Trim(Before(t, '=')), Trim(Before(t[IndexOf(t, '=') + 1..], '=')))
  {
    var t := Trim(piece);
    var parts := Split(t, '=');
    assert PairOf(piece).Some? <==> |parts| >= 2 && parts[0] != [] && parts[1] != [];
    if '=' in t {
      var i := IndexOf(t, '=');
      SplitSecond(t, '=');
      assert parts[0] == t[..i];
      var b := Before(t[i + 1..], '=');
      assert parts[1] == b;
      assert |b| > 0 <==> (i + 1 < |t| && t[i + 1] != '=') by {
        if i + 1 < |t| { assert t[i + 1..][0] == t[i + 1]; }
      }
      if PairOf(piece).Some? {
        assert PairOf(piece).value == (Trim(parts[0]), Trim(parts[1]));
      }
    } else {
      assert |parts| == 1;
    }
  }

  type Pair = Option<(string, string)>

  /** The pair each piece contributes, in order. */
  function PairsOf(pieces: seq<string>): (pairs: seq<Pair>)
    ensures |pairs| == |pieces|
    ensures forall j {:trigger PairOf(pieces[j])} :: 0 <= j < |pieces| ==> pairs[j] == PairOf(pieces[j])
  {
    seq(|pieces|, j requires 0 <= j < |pieces| => PairOf(pieces[j]))
  }

  /** Whether a pair carries cookie name `k`. */
  predicate Names(pair: Pair, k: string) {
    pair.Some? && pair.value.0 == k
  }

  /** The outcome of one `cookies[name] = value` assignment. */
  function Assign(jar: Jar, pair: Pair): Jar {
    if pair.Some? && pair.value.0 != ProtoKey then jar[pair.value.0 := pair.value.1] else jar
  }

  /** The object built by the `forEach` over the pairs, in order: every entry
      was carried by some pair, and `__proto__` is never an own key. */
  function Collect(pairs: seq<Pair>): (jar: Jar)
    ensures forall k :: k in jar ==> k != ProtoKey
    ensures forall k :: k in jar ==> exists j :: 0 <= j < |pairs| && pairs[j] == Some((k, jar[k]))
  {
    if |pairs| == 0 then map[]
    else
      var init := pairs[..|pairs| - 1];
      var jar := Collect(init);
      assert forall j :: 0 <= j < |init| ==> init[j] == pairs[j];
      Assign(jar, pairs[|pairs| - 1])
  }

  /** Index of the last pair naming `k`, or -1 when none does. */
  function LastNaming(pairs: seq<Pair>, k: string): (j: int)
    ensures -1 <= j < |pairs|
    ensures j >= 0 ==> Names(pairs[j], k)
    ensures forall i :: j < i < |pairs| ==> !Names(pairs[i], k)
  {
    if |pairs| == 0 then -1
    else if Names(pairs[|pairs| - 1], k) then |pairs| - 1
    else LastNaming(pairs[..|pairs| - 1], k)
  }

  /** A name is in the result exactly when some pair names it (and it is not
      `__proto__`), and its value is the one given by the LAST such pair:
      later duplicates overwrite earlier ones. */
  lemma {:induction false} CollectLastWins(pairs: seq<Pair>, k: string)
    ensures k in Collect(pairs) <==> k != ProtoKey && LastNaming(pairs, k) >= 0
    ensures k in Collect(pairs) ==> Collect(pairs)[k] == pairs[LastNaming(pairs, k)].value.1
  {
    if |pairs| > 0 {
      var init := pairs[..|pairs| - 1];
      CollectLastWins(init, k);
      if !Names(pairs[|pairs| - 1], k) {
        assert LastNaming(pairs, k) == LastNaming(init, k);
        if LastNaming(init, k) >= 0 {
          assert pairs[LastNaming(init, k)] == init[LastNaming(init, k)];
        }
      }
    }
  }

  /** `parseCookies(cookieString)`; `None` is a non-string falsy argument
      (`undefined` or `null`, which this function treats alike). A falsy
      argument gives the empty object; every key is a
      non-empty trimmed name and every value a trimmed value, neither holding
      a `;` or an `=`. */
  function ParseCookies(cookieString: Option<string>): (jar: Jar)
    ensures cookieString.None? || cookieString == Some("") ==> jar == map[]
    ensures forall k :: k in jar ==> k != ProtoKey && WellFormedName(k) && WellFormedValue(jar[k])
  {
    match cookieString
    case None => map[]
    case Some(s) =>
      if s == "" then map[]
      else
        var pieces := Split(s, ';');
        var jar := Collect(PairsOf(pieces));
        assert forall k :: k in jar ==> WellFormedName(k) && WellFormedValue(jar[k]) by {
          forall k | k in jar ensures WellFormedName(k) && WellFormedValue(jar[k]) {
            var j :| 0 <= j < |pieces| && PairsOf(pieces)[j] == Some((k, jar[k]));
            assert PairOf(pieces[j]) == Some((k, jar[k]));
          }
        }
        jar
  }

  /** The result of `parseCookies` on a string: a name is present iff some
      `;`-piece names it, and the last piece naming it decides its value. */
  lemma ParseCookiesLastWins(s: string, k: string)
    ensures var pairs := PairsOf(Split(s, ';'));
      && (k in ParseCookies(Some(s)) <==> k != ProtoKey && LastNaming(pairs, k) >= 0)
      && (k in ParseCookies(Some(s)) ==> ParseCookies(Some(s))[k] == pairs[LastNaming(pairs, k)].value.1)
  {
    if s == "" {
      EmptyNamesNothing(s, k);
    } else {
      CollectLastWins(PairsOf(Split(s, ';')), k);
    }
  }

  /** The empty string is one piece that names nothing. */
  lemma EmptyNamesNothing(s: string, k: string)
    requires |s| == 0
    ensures LastNaming(PairsOf(Split(s, ';')), k) == -1
  {
    var pieces := Split(s, ';');
    assert pieces == [s];
    assert |Split(Trim(s), '=')| == 1;
    assert PairOf(pieces[0]) == None;
  }

  /** The value stops at the second `=`: a piece that trims to
      `name=value=rest` carries the pair (name, value), both trimmed,
      whatever `rest` holds. */
  lemma ValueStopsAtSecondEquals(piece: string, name: string, value: string, rest: string)
    requires name != [] && value != [] && '=' !in name && '=' !in value
    requires Trim(piece) == name + "=" + value + "=" + rest
    ensures PairOf(piece) == Some((Trim(name), Trim(value)))
  {
    SplitTwo(name, value, rest, '=');
  }

  /** Because the value is checked for emptiness before it is trimmed, a
      blank value followed by a second `=` survives as an EMPTY value:
      `a= =b` gives `a` the value "". */
  lemma BlankValueSurvives(piece: string, name: string, blank: string, rest: string)
    requires name != [] && '=' !in name && blank != [] && AllWhite(blank)
    requires Trim(piece) == name + "=" + blank + "=" + rest
    ensures PairOf(piece) == Some((Trim(name), ""))
  {
    assert '=' !in blank by { assert !IsWhite('='); }
    ValueStopsAtSecondEquals(piece, name, blank, rest);
    TrimEmptyIffBlank(blank);
  }
}

=== FILE: events.dfy ===
/** The JSON messages the server sends over the WebSocket: one constructor
    per `type`, except that `type: 'stats'` has two, `Progress` for the
    per-line progress message (index.js:273-277) and `Stats` for the counters
    `updateStats` sends (index.js:324-331). The text of a `log` message is a
    `Note`. */
module Events {
  import opened Sessions

  /** The `logType` of a `log` message. */
  datatype LogType = Info | Success | Warning | Error

  /** The text of a `log` message, by what it reports. */
  datatype Note =
    | Authenticating
    | Authenticated
    | SessionStarted(id: string)
    | TargetThread(threadId: string)
    | TotalMessages(count: nat)
    | Sending(position: nat, total: nat, preview: string)
    | SentOk(position: nat)
    | SendFailed(position: nat, error: string)
    | StoppedByUser
    | AllSent
    | StopRequested(id: string)

  /** The `message` of an `error` event. */
  datatype Problem =
    | NoMessages
    | AuthFailed
    | SessionNotFound(id: string)
    | UnknownCommand
    | Thrown(message: string)

  datatype Event =
    | Connected
    | Pong
    | Failure(problem: Problem)
    | Log(level: LogType, note: Note)
    | SessionAssigned(id: string)
    | Progress(currentMessage: string, position: nat, total: nat)
    | Stats(view: StatsView)
    | Finished(id: string, totalSent: nat)   // the `completed` message
    | SessionDetails(details: Details)

  predicate IsSentOk(e: Event) {
    e.Log? && e.note.SentOk?
  }

  /** Number of "Message i sent successfully!" lines in a log. */
  function CountSentOk(events: seq<Event>): nat {
    if |events| == 0 then 0
    else CountSentOk(events[..|events| - 1]) + (if IsSentOk(events[|events| - 1]) then 1 else 0)
  }

  lemma {:induction false} CountSentOkAppend(a: seq<Event>, b: seq<Event>)
    ensures CountSentOk(a + b) == CountSentOk(a) + CountSentOk(b)
    decreases |b|
  {
    if |b| > 0 {
      assert (a + b)[..|a + b| - 1] == a + b[..|b| - 1];
      CountSentOkAppend(a, b[..|b| - 1]);
    } else {
      assert a + b == a;
    }
  }

  lemma {:induction false} CountSentOkNone(events: seq<Event>)
    requires forall j :: 0 <= j < |events| ==> !IsSentOk(events[j])
    ensures CountSentOk(events) == 0
    decreases |events|
  {
    if |events| > 0 {
      CountSentOkNone(events[..|events| - 1]);
    }
  }

  lemma CountSentOkOne(e: Event)
    ensures CountSentOk([e]) == if IsSentOk(e) then 1 else 0
  {
    assert [e][..0] == [];
  }

  /** No `completed` event occurs in the log. */
  predicate NoCompletion(events: seq<Event>) {
    forall j :: 0 <= j < |events| ==> !events[j].Finished?
  }

  /** Exactly one `completed` event occurs in the log, and it is the last. */
  predicate CompletionOnlyLast(events: seq<Event>) {
    && |events| > 0 && events[|events| - 1].Finished?
    && forall j :: 0 <= j < |events| - 1 ==> !events[j].Finished?
  }

  /** Events without a `completed` one, sent before a log that completes
      last, keep the completion last. */
  lemma CompletionOnlyLastAppend(head: seq<Event>, rest: seq<Event>)
    requires NoCompletion(head) && CompletionOnlyLast(rest)
    ensures CompletionOnlyLast(head + rest)
    ensures (head + rest)[|head + rest| - 1] == rest[|rest| - 1]
  {
    var all := head + rest;
    forall j | 0 <= j < |all| - 1 ensures !all[j].Finished? {
      if j < |head| {
        assert all[j] == head[j];
      } else {
        assert all[j] == rest[j - |head|];
      }
    }
  }
}

=== FILE: gateway.dfy ===
/** The WebSocket side of the server: the `message.type` dispatch
    (index.js:107-146), `handleStart` without its network step
    (index.js:154-247), `handleStop` (index.js:335-350) and
    `handleViewSession` (index.js:353-371). Each handler is a function from
    the registry and the inbound message to the new registry and the
    messages sent back on the connection. */
module Gateway {
  import opened Optional
  import opened JsString
  import opened Cookies
  import opened Sessions
  import opened Events
  import opened Automation
  import opened Registry

  /** The fields of a `start` message that `handleStart` reads
      (index.js:155); a field missing from the frame (`undefined`) is
      `None`. A field sent as `null` is not part of this model. */
  datatype StartRequest = StartRequest(
    cookiesContent: Option<string>,
    messageContent: Option<string>,
    threadId: string,
    delay: Option<int>,
    prefix: Option<string>)

  /** What `handleStart` gets from outside the code: the generated session
      id, the start time as text, whether `JSON.parse` accepted the cookie
      text, what `getFbDtsg` resolved to, and the world the send loop will
      meet. */
  datatype StartEnv = StartEnv(
    sessionId: string,
    started: string,
    cookiesAreJson: bool,
    token: Option<string>,
    world: World)

  const DefaultDelay: int := 5

  /** The message of the TypeError `messageContent.split` throws when the
      field is missing (`undefined`); the dispatcher's `catch` sends it as an
      `error`. */
  const MissingMessagesError: string := "Cannot read properties of undefined (reading 'split')"

  /** `m => m.trim()` used as a filter: the trimmed line is non-empty. */
  predicate HasContent(line: string) {
    Trim(line) != []
  }

  /** `lines.filter(m => m.trim())`: the lines with content, untrimmed, in
      their original order (which lines those are is `NonBlankMembers`). */
  function NonBlank(lines: seq<string>): (kept: seq<string>)
    ensures |kept| <= |lines|
    ensures forall j :: 0 <= j < |kept| ==> HasContent(kept[j])
  {
    if |lines| == 0 then []
    else (if HasContent(lines[0]) then [lines[0]] else []) + NonBlank(lines[1..])
  }

  /** A line is kept exactly when it is one of the input lines and has
      content. */
  lemma {:induction false} NonBlankMembers(lines: seq<string>)
    ensures forall x :: x in NonBlank(lines) <==> x in lines && HasContent(x)
    decreases |lines|
  {
    if |lines| > 0 {
      NonBlankMembers(lines[1..]);
      assert lines == [lines[0]] + lines[1..];
    }
  }

  /** Filtering distributes over concatenation, so kept lines keep their
      relative order. */
  lemma {:induction false} NonBlankAppend(a: seq<string>, b: seq<string>)
    ensures NonBlank(a + b) == NonBlank(a) + NonBlank(b)
    decreases |a|
  {
    if |a| > 0 {
      var head := if HasContent(a[0]) then [a[0]] else [];
      assert (a + b)[0] == a[0];
      assert (a + b)[1..] == a[1..] + b;
      assert NonBlank(a + b) == head + NonBlank(a[1..] + b);
      NonBlankAppend(a[1..], b);
      assert NonBlank(a) == head + NonBlank(a[1..]);
      assert head + (NonBlank(a[1..]) + NonBlank(b)) == (head + NonBlank(a[1..])) + NonBlank(b);
    } else {
      assert a + b == b;
      assert NonBlank(a) == [];
    }
  }

  /** Lines that all have content are kept as they are. */
  lemma {:induction false} NonBlankKeepsAll(lines: seq<string>)
    requires forall j :: 0 <= j < |lines| ==> HasContent(lines[j])
    ensures NonBlank(lines) == lines
    decreases |lines|
  {
    if |lines| > 0 {
      NonBlankKeepsAll(lines[1..]);
    }
  }

  /** `messageContent.split('\n').filter(m => m.trim())` (index.js:169):
      each message is one `\n`-separated line of the text, with content,
      not trimmed (a `\r` before the newline stays part of it). */
  function SplitMessages(content: string): (lines: seq<string>)
    ensures forall j :: 0 <= j < |lines| ==> HasContent(lines[j]) && '\n' !in lines[j]
    ensures forall x :: x in lines <==> x in Split(content, '\n') && HasContent(x)
  {
    var parts := Split(content, '\n');
    NonBlankMembers(parts);
    var lines := NonBlank(parts);
    assert forall j :: 0 <= j < |lines| ==> '\n' !in lines[j] by {
      forall j | 0 <= j < |lines| ensures '\n' !in lines[j] {
        assert lines[j] in parts;
        var k :| 0 <= k < |parts| && parts[k] == lines[j];
      }
    }
    lines
  }

  /** The message list is empty, and the start is refused with "No messages
      provided", exactly when the message text is blank. */
  lemma NoMessagesIffBlank(content: string)
    ensures SplitMessages(content) == [] <==> AllWhite(content)
  {
    var parts := Split(content, '\n');
    AllWhiteJoin(parts, '\n');
    forall k | 0 <= k < |parts| ensures HasContent(parts[k]) <==> !AllWhite(parts[k]) {
      TrimEmptyIffBlank(parts[k]);
    }
    NonBlankMembers(parts);
    if SplitMessages(content) != [] {
      assert SplitMessages(content)[0] in SplitMessages(content);
    }
  }

  /** What `cookies` becomes (index.js:161-166): the parsed JSON when
      `JSON.parse` accepts the text, and otherwise what `parseCookies` makes
      of it. A missing (`undefined`) text makes `JSON.parse` throw, and
      `parseCookies` then gives the empty object. */
  function CookiesFor(content: Option<string>, isJson: bool): (r: CookieSource)
    ensures r.JsonCookies? <==> content.Some? && isJson
    ensures r.JsonCookies? ==> r.text == content.value
    ensures r.PairCookies? ==> r.jar == ParseCookies(content)
    ensures content.None? ==> r == PairCookies(map[])
  {
    if content.Some? && isJson then JsonCookies(content.value) else PairCookies(ParseCookies(content))
  }

  /** `delay || 5`: an absent or zero delay becomes 5 seconds. */
  function DelayOr(delay: Option<int>): int {
    if delay.None? || delay.value == 0 then DefaultDelay else delay.value
  }

  /** `prefix || ''` */
  function PrefixOr(prefix: Option<string>): string {
    if prefix.None? then "" else prefix.value
  }

  /** `if (!fbDtsg)` (index.js:188): an absent token and the empty string
      are both falsy, so both refuse the start. */
  predicate HasToken(token: Option<string>) {
    token.Some? && token.value != ""
  }

  datatype Prepared = Rejected(events: seq<Event>) | Admitted(session: Session, events: seq<Event>)

  /** `handleStart` up to the point where the session is filed
      (index.js:155-217): an absent message text throws, a blank one is
      refused with "No messages provided", a missing or empty token with
      "Failed to authenticate"; otherwise a new running session is built with
      zero counters, no stop request, the non-blank lines, and the delay and
      prefix defaults applied. */
  function Prepare(req: StartRequest, env: StartEnv): (p: Prepared)
    ensures p.Admitted? <==>
      req.messageContent.Some? && !AllWhite(req.messageContent.value) && HasToken(env.token)
    ensures p.Rejected? ==> |p.events| > 0 && p.events[|p.events| - 1].Failure?
    ensures req.messageContent.None? ==> p == Rejected([Failure(Thrown(MissingMessagesError))])
    ensures req.messageContent.Some? && AllWhite(req.messageContent.value) ==>
      p == Rejected([Failure(NoMessages)])
    ensures req.messageContent.Some? && !AllWhite(req.messageContent.value) && !HasToken(env.token) ==>
      p == Rejected([Log(Info, Authenticating), Failure(AuthFailed)])
    ensures p.Admitted? ==>
      var s := p.session;
      && s.id == env.sessionId && s.status == Running
      && s.totalSent == 0 && s.loopCount == 0 && !s.stopRequested
      && s.messages == SplitMessages(req.messageContent.value) && |s.messages| > 0
      && s.threadId == req.threadId && s.fbDtsg == env.token.value && s.fbDtsg != ""
      && s.started == env.started && s.cookies == CookiesFor(req.cookiesContent, env.cookiesAreJson)
      && (req.delay.None? || req.delay.value == 0 ==> s.delay == 5)
      && (req.delay.Some? && req.delay.value != 0 ==> s.delay == req.delay.value)
      && (req.prefix.None? ==> s.prefix == "")
      && (req.prefix.Some? ==> s.prefix == req.prefix.value)
  {
    match req.messageContent
    case None => Rejected([Failure(Thrown(MissingMessagesError))])
    case Some(content) =>
      var messages := SplitMessages(content);
      NoMessagesIffBlank(content);
      if |messages| == 0 then Rejected([Failure(NoMessages)])
      else if !HasToken(env.token) then Rejected([Log(Info, Authenticating), Failure(AuthFailed)])
      else
        var id := env.sessionId;
        var session := Session(
          id, Running, 0, 0, env.started, req.threadId,
          CookiesFor(req.cookiesContent, env.cookiesAreJson), messages,
          DelayOr(req.delay), PrefixOr(req.prefix), env.token.value, false);
        Admitted(session, [
          Log(Info, Authenticating), Log(Success, Authenticated), SessionAssigned(id),
          Log(Success, SessionStarted(id)), Log(Info, TargetThread(req.threadId)),
          Log(Info, TotalMessages(|messages|))])
  }

  /** The registry as the loop starts (`registered`), the registry once the
      loop has returned (`registry`), and every message sent. */
  datatype StartOutcome = StartOutcome(registered: Table, registry: Table, events: seq<Event>)

  /** `handleStart` (index.js:154-247): a refused start files nothing; an
      admitted one files the new running session under its id BEFORE the
      loop starts, leaves every other entry alone, and after the loop the
      same entry holds the session as the loop left it. */
  function HandleStart(reg: Table, req: StartRequest, env: StartEnv): (r: StartOutcome)
    requires Valid(reg)
    ensures Valid(r.registered) && Valid(r.registry)
    ensures Prepare(req, env).Rejected? ==> r.registered == reg && r.registry == reg
    ensures Prepare(req, env).Admitted? ==>
      var id := env.sessionId;
      && r.registered.table.Keys == r.registry.table.Keys == reg.table.Keys + {id}
      && r.registered.table[id] == Prepare(req, env).session
      && r.registry.table[id] == RunAutomation(Prepare(req, env).session, env.world).session
      && (forall k :: k in reg.table && k != id ==>
            r.registered.table[k] == reg.table[k] && r.registry.table[k] == reg.table[k])
    ensures |reg.order| <= |r.registered.order| && reg.order == r.registered.order[..|reg.order|]
    ensures |reg.order| <= |r.registry.order| && reg.order == r.registry.order[..|reg.order|]
  {
    match Prepare(req, env)
    case Rejected(events) =>
      assert reg.order[..|reg.order|] == reg.order;
      StartOutcome(reg, reg, events)
    case Admitted(s, events) =>
      var registered := Put(reg, s);
      var run := RunAutomation(s, env.world);
      var registry := Put(registered, run.session);
      assert registry.order[..|reg.order|] == registered.order[..|registered.order|][..|reg.order|];
      StartOutcome(registered, registry, events + run.events)
  }

  /** Any start whose message text is blank sends "No messages provided"
      and files no session. */
  lemma BlankStartRegistersNothing(reg: Table, req: StartRequest, env: StartEnv)
    requires Valid(reg)
    requires req.messageContent.Some? && AllWhite(req.messageContent.value)
    ensures HandleStart(reg, req, env).registry == reg
    ensures HandleStart(reg, req, env).events == [Failure(NoMessages)]
  {
  }

  /** A registry and the messages sent back. */
  datatype Reply = Reply(registry: Table, events: seq<Event>)

  /** `handleStop` (index.js:335-350): for a known id only that session's
      `stopRequested` becomes true and a warning is logged; for an unknown
      id "Session not found" is sent and nothing changes. */
  function HandleStop(reg: Table, id: string): (r: Reply)
    requires Valid(reg)
    ensures Valid(r.registry)
    ensures r.registry.order == reg.order && r.registry.table.Keys == reg.table.Keys
    ensures id in reg.table ==>
      && r.registry.table[id] == reg.table[id].(stopRequested := true)
      && r.events == [Log(Warning, StopRequested(id))]
    ensures id !in reg.table ==> r.registry == reg && r.events == [Failure(SessionNotFound(id))]
    ensures forall k :: k in reg.table && k != id ==> r.registry.table[k] == reg.table[k]
  {
    match Get(reg, id)
    case Some(_) => Reply(MarkStop(reg, id), [Log(Warning, StopRequested(id))])
    case None => Reply(reg, [Failure(SessionNotFound(id))])
  }

  /** Stopping twice is the same as stopping once. */
  lemma StopIdempotent(reg: Table, id: string)
    requires Valid(reg)
    ensures HandleStop(HandleStop(reg, id).registry, id).registry == HandleStop(reg, id).registry
  {
    var once := HandleStop(reg, id).registry;
    var twice := HandleStop(once, id).registry;
    assert twice.table == once.table;
  }

  /** `handleViewSession` (index.js:353-371): only messages, never a new
      registry; for a known id one `session_details` message carrying the
      session's id, status, counters, start time and thread, which agree
      with the session's line of the `/api/sessions` listing
      (`ViewAgreesWithList`). */
  function HandleViewSession(reg: Table, id: string): (events: seq<Event>)
    ensures |events| == 1
    ensures id !in reg.table ==> events[0] == Failure(SessionNotFound(id))
    ensures id in reg.table ==>
      var s := reg.table[id];
      && events[0].SessionDetails?
      && events[0].details.id == s.id && events[0].details.status == s.status
      && events[0].details.totalSent == s.totalSent && events[0].details.loopCount == s.loopCount
      && events[0].details.started == s.started && events[0].details.threadId == s.threadId
  {
    match Get(reg, id)
    case Some(s) => [SessionDetails(DetailsOf(s))]
    case None => [Failure(SessionNotFound(id))]
  }

  lemma ViewAgreesWithList(reg: Table, id: string, i: nat)
    requires Valid(reg) && i < |List(reg)| && List(reg)[i].id == id
    ensures var d := HandleViewSession(reg, id)[0].details;
      var m := List(reg)[i];
      d.id == m.id && d.status == m.status && d.totalSent == m.totalSent
      && d.threadId == m.threadId && d.started == m.started
  {
  }

  /** A parsed WebSocket message: its `type`, its `sessionId` and the start
      fields; or text that `JSON.parse` rejected, with the parser's error
      message. An absent `type` is modelled as the empty string. */
  datatype Frame = Command(kind: string, sessionId: string, start: StartRequest) | Unparsable(error: string)

  /** What can happen on a connection (index.js:97-151). */
  datatype Inbound = Opened | Received(frame: Frame) | Closed | SocketError

  /** The `ws.on('message')` handler: the `switch (message.type)` with its
      `catch` turning a thrown error into an `error` message. */
  function OnMessage(reg: Table, frame: Frame, env: StartEnv): (r: Reply)
    requires Valid(reg)
    ensures Valid(r.registry)
    ensures reg.table.Keys <= r.registry.table.Keys
    ensures |reg.order| <= |r.registry.order| && r.registry.order[..|reg.order|] == reg.order
    ensures frame.Command? && frame.kind !in {"start", "stop", "view_session", "ping"} ==>
      r == Reply(reg, [Failure(UnknownCommand)])
    ensures frame.Command? && frame.kind != "start" ==>
      r.registry.table.Keys == reg.table.Keys
    ensures frame.Unparsable? ==> r == Reply(reg, [Failure(Thrown(frame.error))])
  {
    match frame
    case Unparsable(error) => Reply(reg, [Failure(Thrown(error))])
    case Command(kind, id, req) =>
      if kind == "start" then
        var o := HandleStart(reg, req, env);
        Reply(o.registry, o.events)
      else if kind == "stop" then HandleStop(reg, id)
      else if kind == "view_session" then Reply(reg, HandleViewSession(reg, id))
      else if kind == "ping" then Reply(reg, [Pong])
      else Reply(reg, [Failure(UnknownCommand)])
  }

  /** A `start` command arriving on the connection. */
  predicate IsStart(inbound: Inbound) {
    inbound.Received? && inbound.frame.Command? && inbound.frame.kind == "start"
  }

  /** One connection event: a greeting on open, the dispatcher on a message,
      and nothing at all on close or on a socket error. */
  function OnInbound(reg: Table, inbound: Inbound, env: StartEnv): (r: Reply)
    requires Valid(reg)
    ensures Valid(r.registry)
    ensures reg.table.Keys <= r.registry.table.Keys
    ensures |reg.order| <= |r.registry.order| && r.registry.order[..|reg.order|] == reg.order
    ensures inbound.Closed? || inbound.SocketError? ==> r == Reply(reg, [])
    ensures !IsStart(inbound) ==> r.registry.table.Keys == reg.table.Keys
  {
    match inbound
    case Opened => Reply(reg, [Connected])
    case Received(frame) => OnMessage(reg, frame, env)
    case Closed => Reply(reg, [])
    case SocketError => Reply(reg, [])
  }

  /** A run of connection events handled one after another, the `i`-th
      event meeting `envs(i)` (only a `start` reads it): the registry stays
      valid and no entry is ever
      removed or reordered, whatever the events. */
  function Serve(reg: Table, inbound: seq<Inbound>, envs: nat -> StartEnv): (r: Reply)
    requires Valid(reg)
    ensures Valid(r.registry)
    ensures reg.table.Keys <= r.registry.table.Keys
    ensures |reg.order| <= |r.registry.order| && r.registry.order[..|reg.order|] == reg.order
    decreases |inbound|
  {
    if |inbound| == 0 then Reply(reg, [])
    else
      var first := OnInbound(reg, inbound[0], envs(0));
      var rest := Serve(first.registry, inbound[1..], (i: nat) => envs(i + 1));
      assert rest.registry.order[..|reg.order|] == rest.registry.order[..|first.registry.order|][..|reg.order|];
      Reply(rest.registry, first.events + rest.events)
  }

  /** Only a `start` command files a session: events without one leave the
      set of registered ids as it was. */
  lemma {:induction false} NoStartNoSession(reg: Table, inbound: seq<Inbound>, envs: nat -> StartEnv)
    requires Valid(reg)
    requires forall j :: 0 <= j < |inbound| ==> !IsStart(inbound[j])
    ensures Serve(reg, inbound, envs).registry.table.Keys == reg.table.Keys
    decreases |inbound|
  {
    if |inbound| > 0 {
      var first := OnInbound(reg, inbound[0], envs(0));
      assert !IsStart(inbound[0]);
      NoStartNoSession(first.registry, inbound[1..], (i: nat) => envs(i + 1));
    }
  }

  /** Without a `start` command, a table with no sessions still lists none. */
  lemma NoStartListsNothing(reg: Table, inbound: seq<Inbound>, envs: nat -> StartEnv)
    requires Valid(reg) && |reg.table| == 0
    requires forall j :: 0 <= j < |inbound| ==> !IsStart(inbound[j])
    ensures List(Serve(reg, inbound, envs).registry) == []
  {
    assert |reg.table.Keys| == 0;
    NoStartNoSession(reg, inbound, envs);
    NoIdsListNothing(Serve(reg, inbound, envs).registry);
  }

  /** The server starts with an empty `sessions` Map (index.js:17): until a
      `start` command arrives, `/api/sessions` lists nothing. */
  lemma ServeFromEmpty(start: Table, inbound: seq<Inbound>, envs: nat -> StartEnv)
    requires start == Empty()
    requires forall j :: 0 <= j < |inbound| ==> !IsStart(inbound[j])
    ensures List(Serve(start, inbound, envs).registry) == []
  {
    NoStartListsNothing(start, inbound, envs);
  }
}

=== FILE: js_string.dfy ===
/** The two string primitives of ECMAScript that the server relies on:
    `String.prototype.trim` (section 22.1.3.32 of ECMA-262) and
    `String.prototype.split` with a one-character separator (section 22.1.3.23).
    Characters are Unicode scalar values; the UTF-16 code-unit view of
    JavaScript strings is not modelled. */
module JsString {

  /** The characters `trim` removes: WhiteSpace and LineTerminator as
      sections 12.2 and 12.3 of ECMA-262 define them (the Zs category
      included). */
  const WhiteSpace: set<char> := {
    '\t', '\n', '\U{000B}', '\U{000C}', '\r', ' ', '\U{00A0}', '\U{1680}',
    '\U{2000}', '\U{2001}', '\U{2002}', '\U{2003}', '\U{2004}', '\U{2005}',
    '\U{2006}', '\U{2007}', '\U{2008}', '\U{2009}', '\U{200A}',
    '\U{2028}', '\U{2029}', '\U{202F}', '\U{205F}', '\U{3000}', '\U{FEFF}'
  }

  predicate IsWhite(c: char) {
    c in WhiteSpace
  }

  predicate AllWhite(s: string) {
    forall i :: 0 <= i < |s| ==> IsWhite(s[i])
  }

  /** Neither end of `s` is white space. */
  predicate IsTrimmed(s: string) {
    |s| == 0 || (!IsWhite(s[0]) && !IsWhite(s[|s| - 1]))
  }

  /** Index of the first character at or after `i` that is not white
      space (`|s|` when there is none). */
  function SkipWhite(s: string, i: nat): (j: nat)
    requires i <= |s|
    ensures i <= j <= |s|
    ensures forall k :: i <= k < j ==> IsWhite(s[k])
    ensures j == |s| || !IsWhite(s[j])
    decreases |s| - i
  {
    if i < |s| && IsWhite(s[i]) then SkipWhite(s, i + 1) else i
  }

  /** Index just past the last character before `j` that is not white
      space (`0` when there is none). */
  function SkipWhiteBack(s: string, j: nat): (i: nat)
    requires j <= |s|
    ensures i <= j
    ensures forall k :: i <= k < j ==> IsWhite(s[k])
    ensures i == 0 || !IsWhite(s[i - 1])
  {
    if j > 0 && IsWhite(s[j - 1]) then SkipWhiteBack(s, j - 1) else j
  }

  function TrimStart(s: string): (r: string)
    ensures |r| <= |s| && r == s[|s| - |r|..]
    ensures AllWhite(s[..|s| - |r|])
    ensures |r| == 0 || !IsWhite(r[0])
  {
    var i := SkipWhite(s, 0);
    assert forall k :: 0 <= k < i ==> s[..i][k] == s[k];
    s[i..]
  }

  function TrimEnd(s: string): (r: string)
    ensures |r| <= |s| && r == s[..|r|]
    ensures AllWhite(s[|r|..])
    ensures |r| == 0 || !IsWhite(r[|r| - 1])
  {
    var j := SkipWhiteBack(s, |s|);
    assert forall k :: 0 <= k < |s| - j ==> s[j..][k] == s[j + k];
    s[..j]
  }

  /** `s.trim()`: the result has no white space at either end (what it is a
      slice of is stated by `TrimSlice`). */
  function Trim(s: string): (r: string)
    ensures IsTrimmed(r) && |r| <= |s|
  {
    TrimEnd(TrimStart(s))
  }

  /** `Trim(s)` is the slice `s[i..i + |Trim(s)|]`, and everything outside
      that slice is white space: only white space at the ends is removed. */
  lemma TrimSlice(s: string) returns (i: nat)
    ensures i + |Trim(s)| <= |s| && s[i..i + |Trim(s)|] == Trim(s)
    ensures AllWhite(s[..i]) && AllWhite(s[i + |Trim(s)|..])
  {
    var a := TrimStart(s);
    var r := TrimEnd(a);
    i := |s| - |a|;
    assert s[i..i + |r|] == r;
    assert s[i + |r|..] == a[|r|..];
  }

  /** A trimmed string is its own trim; in particular `Trim` is idempotent. */
  lemma TrimOfTrimmed(s: string)
    requires IsTrimmed(s)
    ensures Trim(s) == s
  {
  }

  lemma TrimIdempotent(s: string)
    ensures Trim(Trim(s)) == Trim(s)
  {
    TrimOfTrimmed(Trim(s));
  }

  /** `s.trim()` is falsy (empty) exactly when `s` consists of white space only. */
  lemma TrimEmptyIffBlank(s: string)
    ensures Trim(s) == [] <==> AllWhite(s)
  {
    var a := TrimStart(s);
    var d := |s| - |a|;
    if Trim(s) == [] {
      assert a[0..] == a;
      assert s[..d] == s;
    } else {
      assert a[0] == s[d];
    }
  }

  /** A string whose first character is not white space keeps that
      character under `trim`. */
  lemma TrimKeepsHead(s: string)
    requires |s| > 0 && !IsWhite(s[0])
    ensures |Trim(s)| > 0 && Trim(s)[0] == s[0]
  {
    TrimEmptyIffBlank(s);
    assert SkipWhite(s, 0) == 0;
    assert TrimStart(s) == s;
  }

  /** `trim` only removes characters, so it cannot introduce one. */
  lemma TrimKeepsAbsent(s: string, c: char)
    requires c !in s
    ensures c !in Trim(s)
  {
    var t := Trim(s);
    var i := TrimSlice(s);
    forall j | 0 <= j < |t| ensures t[j] != c {
      assert t[j] == s[i + j];
    }
  }

  /** Position of the first `c` in `s`. */
  function IndexOf(s: string, c: char): (i: nat)
    requires c in s
    ensures i < |s| && s[i] == c && c !in s[..i]
  {
    if s[0] == c then 0
    else
      var j := IndexOf(s[1..], c);
      assert s[..1 + j] == [s[0]] + s[1..][..j];
      1 + j
  }

  /** The longest prefix of `s` that does not contain `c`. */
  function Before(s: string, c: char): (r: string)
    ensures c !in r && |r| <= |s| && r == s[..|r|]
    ensures |r| < |s| ==> s[|r|] == c
  {
    if c in s then s[..IndexOf(s, c)] else s
  }

  /** Inverse of `Split`: the pieces glued back with the separator between
      them (`Array.prototype.join`). */
  function Join(parts: seq<string>, sep: char): (s: string)
    requires |parts| >= 1
  {
    if |parts| == 1 then parts[0] else parts[0] + [sep] + Join(parts[1..], sep)
  }

  /** `s.split(sep)`: the maximal separator-free pieces of `s`, in order; the
      empty string splits into one empty piece. */
  function Split(s: string, sep: char): (parts: seq<string>)
    ensures |parts| >= 1
    ensures forall k :: 0 <= k < |parts| ==> sep !in parts[k]
    ensures |parts| >= 2 <==> sep in s
    ensures parts[0] == Before(s, sep)
    ensures Join(parts, sep) == s
    decreases |s|
  {
    if sep !in s then [s]
    else
      var i := IndexOf(s, sep);
      var rest := Split(s[i + 1..], sep);
      var parts := [s[..i]] + rest;
      assert parts[1..] == rest;
      assert s == s[..i] + [sep] + s[i + 1..];
      parts
  }

  lemma IndexOfGlued(a: string, c: char, b: string)
    requires c !in a
    ensures c in a + [c] + b && IndexOf(a + [c] + b, c) == |a|
  {
    var s := a + [c] + b;
    assert s[|a|] == c;
    assert s[..|a|] == a;
  }

  /** Splitting a string at a first separator: the text before it, then the
      pieces of the rest. */
  lemma SplitGlued(a: string, sep: char, b: string)
    requires sep !in a
    ensures Split(a + [sep] + b, sep) == [a] + Split(b, sep)
  {
    var s := a + [sep] + b;
    IndexOfGlued(a, sep, b);
    assert s[..|a|] == a;
    assert s[|a| + 1..] == b;
  }

  /** The first two pieces of `a sep b sep c` are `a` and `b`. */
  lemma SplitTwo(a: string, b: string, c: string, sep: char)
    requires sep !in a && sep !in b
    ensures var parts := Split(a + [sep] + b + [sep] + c, sep);
      |parts| >= 2 && parts[0] == a && parts[1] == b
  {
    var u := b + [sep] + c;
    assert a + [sep] + b + [sep] + c == a + [sep] + u;
    SplitGlued(a, sep, u);
    SplitGlued(b, sep, c);
  }

  /** `Split` undoes `Join` on pieces that do not contain the separator. */
  lemma {:induction false} SplitJoin(parts: seq<string>, sep: char)
    requires |parts| >= 1
    requires forall k :: 0 <= k < |parts| ==> sep !in parts[k]
    ensures Split(Join(parts, sep), sep) == parts
    decreases |parts|
  {
    if |parts| > 1 {
      var tail := Join(parts[1..], sep);
      assert Join(parts, sep) == parts[0] + [sep] + tail;
      SplitGlued(parts[0], sep, tail);
      SplitJoin(parts[1..], sep);
      assert parts == [parts[0]] + parts[1..];
    } else {
      assert Join(parts, sep) == parts[0];
    }
  }

  /** The second piece of a split is the separator-free text after the first
      separator. */
  lemma SplitSecond(s: string, sep: char)
    requires sep in s
    ensures |Split(s, sep)| >= 2
    ensures Split(s, sep)[1] == Before(s[IndexOf(s, sep) + 1..], sep)
  {
  }

  lemma AllWhiteConcat(a: string, b: string)
    ensures AllWhite(a + b) <==> AllWhite(a) && AllWhite(b)
  {
    if AllWhite(a + b) {
      forall j | 0 <= j < |b| ensures IsWhite(b[j]) { assert (a + b)[|a| + j] == b[j]; }
      forall j | 0 <= j < |a| ensures IsWhite(a[j]) { assert (a + b)[j] == a[j]; }
    }
  }

  /** Joining with a white-space separator gives a blank string exactly when
      every piece is blank. */
  lemma {:induction false} AllWhiteJoin(parts: seq<string>, sep: char)
    requires |parts| >= 1 && IsWhite(sep)
    ensures AllWhite(Join(parts, sep)) <==> forall k :: 0 <= k < |parts| ==> AllWhite(parts[k])
    decreases |parts|
  {
    if |parts| > 1 {
      var tail := Join(parts[1..], sep);
      AllWhiteJoin(parts[1..], sep);
      AllWhiteConcat(parts[0] + [sep], tail);
      AllWhiteConcat(parts[0], [sep]);
      assert forall k :: 1 <= k < |parts| ==> parts[k] == parts[1..][k - 1];
    }
  }
}

=== FILE: optional.dfy ===
/** The conventional Some/None datatype, standing in for an absent
    JavaScript value where the server tests a value for presence. */
module Optional {

  datatype Option<+T> = None | Some(value: T)

}

=== FILE: registry.dfy ===
/** The process-wide `sessions` Map (index.js:17): session id to session
    record. A JavaScript Map remembers insertion order, which the
    `/api/sessions` listing exposes, so the model keeps the ids in insertion
    order beside the table. Nothing in the server ever deletes an entry. */
module Registry {
  import opened Optional
  import opened Sessions

  /** The Map's contents: the ids in insertion order beside the id-to-record
      table. */
  datatype Table = Table(order: seq<string>, table: map<string, Session>)

  ghost predicate Distinct(xs: seq<string>) {
    forall a, b :: 0 <= a < b < |xs| ==> xs[a] != xs[b]
  }

  /** The representation invariant: every id listed once, exactly the ids of
      the table, and every record filed under its own id. */
  ghost predicate Valid(reg: Table) {
    && Distinct(reg.order)
    && (forall id :: id in reg.table <==> id in reg.order)
    && (forall id :: id in reg.table ==> reg.table[id].id == id)
  }

  /** `new Map()` */
  function Empty(): (reg: Table)
    ensures Valid(reg) && |reg.table| == 0 && |reg.order| == 0
  {
    Table([], map[])
  }

  /** `sessions.get(id)` */
  function Get(reg: Table, id: string): (r: Option<Session>)
    ensures r.Some? <==> id in reg.table
    ensures r.Some? ==> r.value == reg.table[id]
  {
    if id in reg.table then Some(reg.table[id]) else None
  }

  /** `sessions.set(s.id, s)` (index.js:219): the record is filed under its
      id, every other entry is untouched, and a new id goes to the end of the
      insertion order while a known id keeps its place. */
  function Put(reg: Table, s: Session): (r: Table)
    requires Valid(reg)
    ensures Valid(r)
    ensures r.table.Keys == reg.table.Keys + {s.id}
    ensures s.id in r.table && r.table[s.id] == s
    ensures forall id :: id in reg.table && id != s.id ==> r.table[id] == reg.table[id]
    ensures |reg.order| <= |r.order| && r.order[..|reg.order|] == reg.order
  {
    if s.id in reg.table then
      Table(reg.order, reg.table[s.id := s])
    else
      var r := Table(reg.order + [s.id], reg.table[s.id := s]);
      AppendKeepsValid(reg, s);
      assert r.order[..|reg.order|] == reg.order;
      r
  }

  lemma AppendKeepsValid(reg: Table, s: Session)
    requires Valid(reg) && s.id !in reg.table
    ensures Valid(Table(reg.order + [s.id], reg.table[s.id := s]))
  {
    var order := reg.order + [s.id];
    forall a, b | 0 <= a < b < |order| ensures order[a] != order[b] {
      if b == |reg.order| { assert order[a] == reg.order[a]; }
    }
  }

  /** `session.stopRequested = true` on the record filed under `id`, when
      there is one (index.js:336-338). Only that one flag of that one record
      changes. */
  function MarkStop(reg: Table, id: string): (r: Table)
    requires Valid(reg)
    ensures Valid(r)
    ensures r.order == reg.order && r.table.Keys == reg.table.Keys
    ensures id in reg.table ==> r.table[id] == reg.table[id].(stopRequested := true)
    ensures forall k :: k in reg.table && k != id ==> r.table[k] == reg.table[k]
  {
    if id in reg.table then Table(reg.order, reg.table[id := reg.table[id].(stopRequested := true)])
    else reg
  }

  lemma {:induction false} DistinctCard(xs: seq<string>)
    requires Distinct(xs)
    ensures |set x | x in xs| == |xs|
  {
    if |xs| > 0 {
      var init := xs[..|xs| - 1];
      var last := xs[|xs| - 1];
      assert Distinct(init);
      DistinctCard(init);
      assert (set x | x in xs) == (set x | x in init) + {last};
      assert last !in init;
    }
  }

  lemma KeysCard(reg: Table)
    requires Valid(reg)
    ensures |reg.table| == |reg.order|
  {
    DistinctCard(reg.order);
    assert reg.table.Keys == set x | x in reg.order;
  }

  /** `Array.from(sessions.values()).map(...)` for `/api/sessions`
      (index.js:375-381): one summary per registered session, in insertion
      order, each showing its session's current id, status, count, thread
      and start time (that each session appears exactly once is
      `ListEachOnce`). */
  function List(reg: Table): (summaries: seq<Summary>)
    requires Valid(reg)
    ensures |summaries| == |reg.order| == |reg.table|
    ensures forall i :: 0 <= i < |summaries| ==> summaries[i].id == reg.order[i]
    ensures forall i :: 0 <= i < |summaries| ==>
      summaries[i].id in reg.table && summaries[i] == SummaryOf(reg.table[summaries[i].id])
  {
    KeysCard(reg);
    seq(|reg.order|, i requires 0 <= i < |reg.order| => SummaryOf(reg.table[reg.order[i]]))
  }

  /** Every registered session is listed, and none twice. */
  lemma ListEachOnce(reg: Table)
    requires Valid(reg)
    ensures var summaries := List(reg);
      forall id :: id in reg.table ==> exists i :: 0 <= i < |summaries| && summaries[i].id == id
    ensures var summaries := List(reg);
      forall a, b :: 0 <= a < b < |summaries| ==> summaries[a].id != summaries[b].id
  {
    var summaries := List(reg);
    forall id | id in reg.table ensures exists i :: 0 <= i < |summaries| && summaries[i].id == id {
      var i :| 0 <= i < |reg.order| && reg.order[i] == id;
      assert summaries[i].id == id;
    }
  }

  /** A table without ids lists nothing. */
  lemma NoIdsListNothing(reg: Table)
    requires Valid(reg) && reg.table.Keys == {}
    ensures List(reg) == []
  {
    assert |reg.table| == |reg.table.Keys| == 0;
  }
}

=== FILE: sessions.dfy ===
/** The session record `handleStart` builds (index.js:203-217) and the
    read-only views of it that the server sends out. */
module Sessions {
  import opened Cookies

  datatype Status = Running | Stopped | Completed

  /** What `cookies` holds: whatever `JSON.parse` produced when the text was
      JSON (kept as that text, since the parsed object is opaque here), or
      the object `parseCookies` built from it otherwise. */
  datatype CookieSource = JsonCookies(text: string) | PairCookies(jar: Jar)

  /** One automation session. The WebSocket the session reports to is not
      part of the record. */
  datatype Session = Session(
    id: string,
    status: Status,
    totalSent: nat,
    loopCount: nat,
    started: string,
    threadId: string,
    cookies: CookieSource,
    messages: seq<string>,
    delay: int,
    prefix: string,
    fbDtsg: string,
    stopRequested: bool)

  /** The fields fixed when the session is created; the send loop never
      touches them. */
  predicate SameConfig(a: Session, b: Session) {
    && a.id == b.id && a.started == b.started && a.threadId == b.threadId
    && a.cookies == b.cookies && a.messages == b.messages && a.delay == b.delay
    && a.prefix == b.prefix && a.fbDtsg == b.fbDtsg
  }

  /** Payload of the `stats` event `updateStats` sends (index.js:323-332). */
  datatype StatsView = StatsView(id: string, status: Status, totalSent: nat, loopCount: nat, started: string)

  /** Payload of the `session_details` event (index.js:356-364). */
  datatype Details = Details(id: string, status: Status, totalSent: nat, loopCount: nat, started: string, threadId: string)

  /** One element of the `/api/sessions` list (index.js:375-381). */
  datatype Summary = Summary(id: string, status: Status, totalSent: nat, threadId: string, started: string)

  function StatsOf(s: Session): StatsView {
    StatsView(s.id, s.status, s.totalSent, s.loopCount, s.started)
  }

  function DetailsOf(s: Session): Details {
    Details(s.id, s.status, s.totalSent, s.loopCount, s.started, s.threadId)
  }

  function SummaryOf(s: Session): Summary {
    Summary(s.id, s.status, s.totalSent, s.threadId, s.started)
  }
}
